=== FILE: README.md ===
# Resource-lifetime core of the XQBS C++ utility library, in Dafny

This project models the sequential resource-lifetime logic of the XQBS
headers. The model is built on four layers that share one world: an
abstract heap, the caller's pointer variables, reference-counted objects,
and a log of release events.

- **Allocation helpers** (`xqbs_mem.h`, module `Mem`). The `new` helpers
  either return a non-null pointer or throw `bad_alloc`. The delete helpers
  give a non-null block back and clear the caller's pointer; on NULL they
  do nothing. `XQBS_delete_ptr` takes its pointer by value, so it clears
  nothing. The heap maps each address to the kind of block it holds:
  single object, array of n elements, or C-allocator block. Each release
  of a block is logged as a `Freed` event.
- **Intrusive reference count** (`xqbs_refbase.h`). Module `RefCount` holds
  the pure counter: a 32-bit LONG with explicit two's-complement
  wrap-around, plus a destroyed flag. Module `RefBase` places counted
  objects in the heap. The `Release` that brings the count to zero deletes
  the object's block through `XQBS_delete_ptr`. `AddRef` throws
  `InvalidRefCount` when the new count is not positive, and it keeps the
  increment when it throws.
- **Release/destroy dispatch** (`xqbs_refbase_i.h`, module `RefBaseI`).
  `XQBS_release` calls `Release()` once on a non-null pointer and clears
  the pointer. `XQBS_destroy` looks at the static type. A type that
  converts to `XQBS_RefBase_I*` takes the release path. Every other type
  takes `XQBS_delete`, including classes derived from `XQBS_RefBase`
  alone. In the model this type fact is an input (a `Capability`).
  `RefBaseI.DestroyAsWritten` follows the overloads as written;
  `RefBaseI.Destroy` sends every counted type to the release path, as the
  helpers' documentation intends.
- **Scope guard** (`xqbs_smartguard.h`, module `SmartGuard`). A guard
  holds a slot, a release function (possibly null), a sentinel, and a
  call protocol. There are four protocols: free function with or without
  the value as argument, and member function with or without the value,
  called on a bound owner. The slot is either a private copy (value flow,
  sentinel NULL) or an alias of a caller variable (reference flow).
  - `Reset` calls the function once when it is non-null and the slot
    differs from the sentinel. Then it writes the sentinel into the slot.
  - The destructor runs exactly one `Reset`.
  - Assignment overwrites the slot and releases nothing.
  - `XQBS_SmartFree`, `XQBS_SmartDelete`, `XQBS_SmartDeleteArray` and
    `XQBS_SmartRelease` fix the function and the protocol. Each has a
    value-flow and a reference-flow constructor.
  - Each call of a guard's function is logged as an `Invoked` event, with
    its owner and argument.

Pointer parameters passed by reference (`T*&`) are modelled as a returned
pair `Cleared(w, ptr)`: `ptr` is the value the caller's variable holds
afterwards. The allocator's choice of address is a parameter `raw` of the
allocation functions. NULL stands for a failed `new`. Any other value is
an address the heap does not yet hold.

Undefined behaviour is expressed as a precondition, with one exception
(see "## Left out"). Examples: use of a destroyed object, or deleting a
block of the wrong kind. Deleting a live counted object is not undefined
behaviour but a documented misuse (xqbs_smartguard.h:326-327): such an
object is to be released, never deleted. The `Deletable` precondition
excludes it everywhere except in `RefBaseI.DeleteCounted`, which models
the one path where the code does it. The predicate `World.Valid` holds in
every reachable world: NULL is never allocated, and every live counted
object sits in a single-object block. Every operation preserves it.

`XQBS_SAFE_NEW` (xqbs_mem.h:18) throws `std::bad_alloc` when `new` yields
NULL; the model returns `Err(BadAlloc)`.

`XQBS_RefBase` does not itself derive from `XQBS_RefBase_I`. So
`XQBS_destroy` picks the release path only for classes that derive from
the interface, and deletes a class derived from `XQBS_RefBase` alone
outright (see "## Findings"). The static type is an input of the model,
`RefBaseI.Capability`.

## Model

| member | source | states |
|---|---|---|
| RefCount.InterlockedIsTwosComplement | xqbs_refbase.h:43-60 | the interlocked increment and decrement of the LONG count are the exact sum and difference reduced modulo 2^32 into the LONG range, so LONG_MAX + 1 wraps to LONG_MIN and back |
| RefCount.IncrementDecrementInverse | xqbs_refbase.h:43-60 | the interlocked decrement and increment undo each other on the whole LONG range |
| RefCount.Increment | xqbs_refbase.h:60 | InterlockedIncrement yields the LONG congruent to count + 1 modulo 2^32: count + 1, or LONG_MIN after LONG_MAX |
| RefCount.Decrement | xqbs_refbase.h:43 | InterlockedDecrement yields the LONG congruent to count - 1 modulo 2^32: count - 1, or LONG_MAX after LONG_MIN |
| RefCount.Construct | xqbs_refbase.h:37 | a freshly constructed object has count 1 and is alive |
| RefCount.Release | xqbs_refbase.h:40-54 | the returned value is the pre-call count minus one (modulo 2^32), it becomes the new count, and the object is destroyed iff the returned value is 0 |
| RefCount.AddRef | xqbs_refbase.h:57-69 | the count is incremented and kept even when the call throws; it throws InvalidRefCount iff the new count is <= 0, otherwise returns pre-count plus one |
| RefCount.AddRefThenRelease | xqbs_refbase.h:40-69 | an AddRef followed by a Release restores the object and returns the original count, unless that count was 0 |
| RefCount.AddRefRejectsInvalidCount | xqbs_refbase.h:60-65 | AddRef on a live object with a negative count, or with LONG_MAX (which wraps), throws and destroys nothing |
| RefCount.FreshAddRefReleaseRelease | xqbs_refbase.h:37-68 | from a fresh object, AddRef, Release, Release return 2, 1, 0 and only the last call destroys it |
| RefCount.ReleaseCountdown | xqbs_refbase.h:43-53 | starting from a live count N, k <= N Releases return N-1, ..., N-k and the object is destroyed exactly when k = N |
| RefCount.DestroyedOnLastRelease | xqbs_refbase.h:43-50 | N Releases from count N destroy the object exactly once, on the N-th call, and no shorter run destroys it |
| Mem.SafeNew | xqbs_mem.h:18 | allocation throws BadAlloc iff the underlying `new` yields NULL; otherwise it returns a non-null fresh block of the requested kind and changes nothing else |
| Mem.New | xqbs_mem.h:24 | a single-object allocation returns a non-null deletable block or throws BadAlloc |
| Mem.NewArray | xqbs_mem.h:28 | an array allocation returns a non-null deletable array block of the requested length or throws BadAlloc |
| Mem.SafeDelete | xqbs_mem.h:20 | on a non-null pointer the block leaves the heap, one release is logged and the pointer becomes NULL; on NULL nothing changes |
| Mem.Delete | xqbs_mem.h:48 | XQBS_delete frees a non-null single object exactly once (one more Freed event for it) and leaves NULL in the caller's pointer; NULL is a no-op |
| Mem.DeleteSize | xqbs_mem.h:52 | XQBS_delete_size frees a non-null array block exactly once and leaves NULL in the caller's pointer; NULL is a no-op |
| Mem.DeletePtr | xqbs_mem.h:56 | XQBS_delete_ptr frees exactly that block, keeps every other block, logs one release, and, taking the pointer by value, leaves every caller variable unchanged |
| Mem.DeleteTwiceFreesOnce | xqbs_mem.h:48 | deleting through the same variable twice frees at most once: the second call sees NULL and is a no-op |
| Mem.DeleteSizeTwiceFreesOnce | xqbs_mem.h:52 | the same for arrays through XQBS_delete_size |
| Mem.NewThenDelete | xqbs_mem.h:24-48 | allocating and then deleting restores the heap, having logged exactly one release of the new block |
| Mem.NewArrayThenDeleteSize | xqbs_mem.h:28-52 | allocating an array and then deleting it with XQBS_delete_size restores the heap, having logged exactly one release of the array block |
| RefBase.NewObject | xqbs_refbase.h:37 | a new counted object at the allocator's address is a live single-object block with count 1, added without touching other blocks or objects; a NULL allocation throws BadAlloc |
| RefBase.Release | xqbs_refbase.h:40-54 | Release updates only this object's count to the returned value; at 0 the object is no longer live and its block is freed once through XQBS_delete_ptr; otherwise heap and log are unchanged |
| RefBase.AddRef | xqbs_refbase.h:57-69 | AddRef changes only this object's count, to its wrapped increment, and throws iff that is <= 0 |
| RefBase.NewObjectThenRelease | xqbs_refbase.h:37-53 | the first Release of a fresh object returns 0, destroys it and gives its block back exactly once |
| RefBaseI.ReleaseRef | xqbs_refbase_i.h:40 | XQBS_release on a non-null pointer decrements that object once, whatever the result, and clears the pointer; the block is given back and logged exactly when the count reaches 0, otherwise heap and log are unchanged; on NULL nothing changes |
| RefBaseI.DeleteCounted | xqbs_refbase_i.h:45 | XQBS_delete on a live XQBS_RefBase descendant ends the object and gives its block back whatever its count, and clears the pointer |
| RefBaseI.DestroyAsWritten | xqbs_refbase_i.h:42-48 | overload resolution sends types deriving from XQBS_RefBase_I to XQBS_release, XQBS_RefBase descendants and every other type to XQBS_delete |
| RefBaseI.DestroyAsWrittenDeletesSharedObject | xqbs_refbase_i.h:42-48 | on an XQBS_RefBase descendant with count at least 2, the code as written destroys the object and frees its block, where the release path keeps it alive |
| RefBaseI.Destroy | xqbs_refbase_i.h:42-48 | XQBS_destroy as documented: the release path for every reference-counted type, the delete path for every other type; the caller's pointer is NULL afterwards on both paths |
| RefBaseI.DestroyFreesOnlyWhenOwned | xqbs_refbase_i.h:43-48 | the delete path frees the block at once; the release path frees it only when the count was 1, and otherwise leaves the heap and the object alive |
| RefBaseI.DestroyTwiceActsOnce | xqbs_refbase_i.h:40-48 | destroying through the same variable twice acts once, because the first call left NULL behind |
| SmartGuard.GiveBack | xqbs_smartguard.h:49-51 | DeleteObject / DeleteObjectArray (and `free`) give back a non-null block and log it; on NULL they do nothing; the clearing stays inside the helper |
| SmartGuard.Effect | xqbs_smartguard.h:82 | calling the release function gives back at most one heap block: the value's block for the delete and free functions, the owner's block exactly when Release() brings its count to 0; Release() changes only the owner's count; caller variables are never touched |
| SmartGuard.Invoke | xqbs_smartguard.h:82 | a call of the release function adds exactly one invocation to the log, carrying the function, owner and argument; caller variables are untouched |
| SmartGuard.ValueTracksFlow | xqbs_smartguard.h:75 | the conversion to P& reads the caller's variable itself in reference flow, so it sees the caller's writes to it, and the private copy in value flow, which no such write reaches |
| SmartGuard.Assign | xqbs_smartguard.h:64-75 | assignment makes the slot read the new value without any release; in reference flow the caller's variable gets it, in value flow the world is unchanged |
| SmartGuard.Reset | xqbs_smartguard.h:78-85 | an armed guard calls its function exactly once on the pre-Reset slot value, then the slot holds the sentinel; a disarmed guard is left unchanged; the guard is disarmed afterwards |
| SmartGuard.Destroy | xqbs_smartguard.h:170-173 | destruction is one Reset: an armed guard calls its function exactly once, on the pre-Reset slot value with its owner and argument, with that call's effect on heap and objects; a disarmed guard changes nothing; the sentinel ends in an aliased caller variable, and no caller variable is written in value flow |
| SmartGuard.ResetIdempotent | xqbs_smartguard.h:80 | a second Reset is a no-op, so the function is called at most once |
| SmartGuard.DestroyAfterReset | xqbs_smartguard.h:229-233 | destroying a guard after an explicit Reset releases nothing more |
| SmartGuard.ConstructValue | xqbs_smartguard.h:56 | value flow: the guard holds the given function and protocol, reads p, its sentinel is NULL, the world is untouched, and it is armed iff f is non-null and p is not NULL |
| SmartGuard.ConstructRef | xqbs_smartguard.h:62 | reference flow: the guard holds the given function and protocol, reads the caller's variable, keeps the given sentinel, and is armed iff f is non-null and the variable differs from it |
| SmartGuard.SmartFree | xqbs_smartguard.h:293 | XQBS_SmartFree(p) calls `free` on its value with sentinel NULL; it is armed iff p is non-null and can be reset when p is a C-allocator block |
| SmartGuard.SmartFreeRef | xqbs_smartguard.h:295 | XQBS_SmartFree(p&, v) aliases the variable, calls `free` on it with v as sentinel, and is armed iff it differs from v |
| SmartGuard.SmartDelete | xqbs_smartguard.h:306 | XQBS_SmartDelete(p) calls DeleteObject on its value with sentinel NULL; it is armed iff p is non-null and can be reset when p is a deletable single object |
| SmartGuard.SmartDeleteRef | xqbs_smartguard.h:308 | XQBS_SmartDelete(p&, v) aliases the variable, calls DeleteObject on it with v as sentinel, and is armed iff it differs from v |
| SmartGuard.SmartDeleteArray | xqbs_smartguard.h:319 | XQBS_SmartDeleteArray(p) calls DeleteObjectArray on its value with sentinel NULL; it is armed iff p is non-null and can be reset when p is an array block |
| SmartGuard.SmartDeleteArrayRef | xqbs_smartguard.h:321 | XQBS_SmartDeleteArray(p&, v) aliases the variable, calls DeleteObjectArray on it with v as sentinel, and is armed iff it differs from v |
| SmartGuard.SmartRelease | xqbs_smartguard.h:332 | XQBS_SmartRelease(p) calls Release() with sentinel NULL, binds p itself as the owner, and is armed iff p is non-null |
| SmartGuard.SmartReleaseRef | xqbs_smartguard.h:334 | XQBS_SmartRelease(p&, v) calls Release() with v as sentinel, binds the object the variable points to at construction as the owner, and is armed iff the variable differs from v |
| SmartGuard.ResetCallShape | xqbs_smartguard.h:127-215 | member protocols call owner.f(slot) or owner.f(), free protocols f(slot) or f(); all four use the same condition and leave the sentinel |
| SmartGuard.SmartReleaseTargetsOriginal | xqbs_smartguard.h:332-334 | after the slot is reassigned to another non-null object, Reset still decrements the object bound at construction and leaves the new one alone |
| SmartGuard.RunWithoutAssignReleasesOnce | xqbs_smartguard.h:78-85 | without assignments, any series of Resets calls the function once if the guard started armed and was reset, never otherwise |
| SmartGuard.RunReleasesBoundedByAssignments | xqbs_smartguard.h:64-72 | over any series of assignments and Resets, calls are bounded by one for the initial value plus one per assignment, the only way to re-arm |
| SmartGuard.RunPrivateKeepsVars | xqbs_smartguard.h:56 | a value-flow guard never writes a caller variable, whatever is done with it |
| SmartGuard.RunAliasSentinel | xqbs_smartguard.h:83 | after Resets of an armed reference-flow guard the caller's variable holds the sentinel |
| SmartGuard.RunResetsDisarmedIdentity | xqbs_smartguard.h:80 | Resets of a disarmed guard change nothing |
| SmartGuard.ScopeReleasesExactlyOnce | xqbs_smartguard.h:230 | over a whole scope without assignments (any Resets, then the destructor) an armed guard releases exactly once and an aliased variable ends at the sentinel |
| Scenarios.ArrayGuardScope | xqbs_smartguard.h:315-322 | an array of 10 guarded by XQBS_SmartDeleteArray(x, NULL): leaving the scope calls the array deleter once with the original pointer, frees the block once and leaves NULL in x |
| Scenarios.RefReleaseGuardScope | xqbs_smartguard.h:328-335 | a fresh counted object guarded by XQBS_SmartRelease is destroyed exactly once at scope end: count 1 to 0, block freed once |
| Scenarios.BlockGuardsFreeOnce | xqbs_smartguard.h:290-322 | XQBS_SmartFree, XQBS_SmartDelete and XQBS_SmartDeleteArray over a block of their own kind give it back exactly once at scope end, with one invocation, and leave the rest of the heap alone |
| Scenarios.SharedObjectSurvivesGuard | xqbs_refbase.h:40-54 | a guard over an object with count 2 only drops its own reference: the object stays alive with count 1 |

## Left out

- Atomicity and memory ordering of `InterlockedIncrement` / `InterlockedDecrement` and the `volatile` count: the counter is modelled sequentially, and no claim about concurrent use is made.
- `XQBS_SmartHandle` and `CloseHandle`: an OS binding. It would be one more free-function guard with a caller-supplied function (`Custom`).
- Real memory operations (`::free`, `new`, `delete`, `delete []`, the `reinterpret_cast` in DeleteObject / DeleteObjectArray): they are replaced by the abstract heap and `Freed` events. Matching the block kind is a precondition.
- The template tag types and `_Reset` helper structs: this compile-time dispatch is replaced by the `Protocol` datatype. The combinations the C++ types admit are the predicate `WellTyped`.
- `XQBS_new_ctor1` to `XQBS_new_ctor4`: only constructor-argument forwarding on top of the same null check that `Mem.New` models.
- C++ object-lifetime details: the uninitialised `m_d` in reference flow, virtual destructor chaining, friend and protected access. Deleting a live counted object is modelled only where the code does it, in `RefBaseI.DeleteCounted`; elsewhere it is the `Deletable` precondition.
- Exception types and messages: exceptions are the error values `BadAlloc` and `InvalidRefCount`.
- The writable reference returned by `operator P&`: a write through it is the same as `SmartGuard.Assign`. The model offers only the read (`SmartGuard.Value`).
- `XQBS_SmartRelease` built from a NULL pointer binds a reference to `*NULL`, which C++ leaves undefined. The model admits it. Such a guard equals its NULL sentinel, so it never calls `Release()`.
- `SmartGuard.Run`: a series of operations is cut short (`None`) when a Reset would call its function where that is undefined. The lifetime lemmas speak only of runs that stay defined.
- RefBaseI.ReleaseRef: `XQBS_RefBase_I::Release` is pure virtual; every implementer is assumed to count like `XQBS_RefBase::Release`, the library's only counter. `RefBaseI.DestroyFreesOnlyWhenOwned` and `RefBaseI.DestroyTwiceActsOnce` rest on that assumption.
- The base class `XQBS_SmartGuardBase` alone: its destructor is protected and empty. Only the derived guards, whose destructors call `Reset`, are modelled as destructible.

## Findings

| source | as written | input that shows it | evidently intended | confidence | as-written member | corrected member |
|---|---|---|---|---|---|---|
| xqbs_refbase_i.h:42-48 | `XQBS_destroy(T*&)` on a class derived from `XQBS_RefBase` picks the `void*` overload, because `XQBS_RefBase` does not implement `XQBS_RefBase_I`, and deletes the object whatever its count | a live `XQBS_RefBase` descendant with count 2, still held elsewhere: it is destroyed and its block freed | the comments on the two helper overloads send descendants of `XQBS_RefBase` to the release path, which drops one reference | high, not executed | RefBaseI.DestroyAsWritten, shown by RefBaseI.DestroyAsWrittenDeletesSharedObject | RefBaseI.Destroy, proved by RefBaseI.DestroyFreesOnlyWhenOwned |

=== FILE: mem.dfy ===
/** The null-safe allocation and deallocation helpers. Allocation asks the
    allocator for a block and throws BadAlloc when it yields NULL;
    deallocation gives back a non-null block and clears the pointer the
    caller passed by reference, and does nothing for NULL. */
module Mem {
  import opened Outcomes
  import opened World

  /** A successful allocation: the new world and the pointer returned. */
  datatype Alloc = Alloc(w: State, ptr: Ptr)

  /** The allocation macro: `raw` is what the underlying `new` produced
      (NULL when it failed, otherwise a block the heap does not yet hold). */
  function SafeNew(w: State, raw: Ptr, kind: Kind): (r: Result<Alloc>)
    requires Valid(w) && raw !in w.heap
    ensures r.Err? <==> raw == NULL
    ensures r.Err? ==> r.error == BadAlloc
    ensures r.Ok? ==> r.value.ptr != NULL && r.value.ptr !in w.heap
    ensures r.Ok? ==> r.value.w == w.(heap := w.heap[r.value.ptr := kind])
    ensures r.Ok? ==> Valid(r.value.w)
  {
    if raw == NULL then Err(BadAlloc) else Ok(Alloc(w.(heap := w.heap[raw := kind]), raw))
  }

  /** `new T()` through the null check: a single object or BadAlloc. */
  function New(w: State, raw: Ptr): (r: Result<Alloc>)
    requires Valid(w) && raw !in w.heap
    ensures r.Ok? ==> r.value.ptr != NULL && Deletable(r.value.w, r.value.ptr, Single)
    ensures r.Ok? ==> r.value.w.log == w.log && r.value.w.vars == w.vars
    ensures r.Err? ==> r.error == BadAlloc
  {
    SafeNew(w, raw, Single)
  }

  /** `new T[size]` through the null check: an array block or BadAlloc. */
  function NewArray(w: State, raw: Ptr, size: nat): (r: Result<Alloc>)
    requires Valid(w) && raw !in w.heap
    ensures r.Ok? ==> r.value.ptr != NULL && Deletable(r.value.w, r.value.ptr, Array(size))
    ensures r.Ok? ==> r.value.w.log == w.log && r.value.w.vars == w.vars
    ensures r.Err? ==> r.error == BadAlloc
  {
    SafeNew(w, raw, Array(size))
  }

  /** The world after a by-reference pointer was handled, and the value that
      pointer holds afterwards. */
  datatype Cleared = Cleared(w: State, ptr: Ptr)

  /** Giving back the non-null block `p` of kind `k` (`delete`, `delete []`
      or `free`): it leaves the heap and one Freed event is logged. */
  function Free(w: State, p: Ptr, k: Kind): (r: State)
    requires Deletable(w, p, k)
    ensures p !in r.heap && r.heap == w.heap - {p}
    ensures r.log == w.log + [Freed(p, k)]
    ensures r.objs == w.objs && r.vars == w.vars
    ensures Valid(w) ==> Valid(r)
  {
    w.(heap := w.heap - {p}, log := w.log + [Freed(p, k)])
  }

  /** The deallocation macro: a non-null pointer is given back as `k` and
      cleared; a NULL pointer is left alone. */
  function SafeDelete(w: State, ptr: Ptr, k: Kind): (r: Cleared)
    requires ptr != NULL ==> Deletable(w, ptr, k)
    ensures r.ptr == NULL
    ensures ptr == NULL ==> r.w == w
    ensures ptr != NULL ==> ptr !in r.w.heap && r.w.heap == w.heap - {ptr}
    ensures ptr != NULL ==> r.w.log == w.log + [Freed(ptr, k)]
    ensures r.w.objs == w.objs && r.w.vars == w.vars
    ensures Valid(w) ==> Valid(r.w)
  {
    if ptr != NULL then Cleared(Free(w, ptr, k), NULL) else Cleared(w, ptr)
  }

  /** XQBS_delete: `delete` a single object and clear the caller's pointer. */
  function Delete(w: State, ptr: Ptr): (r: Cleared)
    requires ptr != NULL ==> Deletable(w, ptr, Single)
    ensures r.ptr == NULL
    ensures ptr == NULL ==> r.w == w
    ensures ptr != NULL ==> ptr !in r.w.heap && r.w.heap == w.heap - {ptr}
    ensures ptr != NULL ==> Count(r.w.log, FreesOf(ptr)) == Count(w.log, FreesOf(ptr)) + 1
    ensures ptr != NULL ==> r.w.log == w.log + [Freed(ptr, Single)]
    ensures r.w.objs == w.objs && r.w.vars == w.vars
    ensures Valid(w) ==> Valid(r.w)
  {
    var r := SafeDelete(w, ptr, Single);
    CountSnoc(w.log, Freed(ptr, Single), FreesOf(ptr));
    r
  }

  /** XQBS_delete_size: `delete []` an array block and clear the caller's
      pointer; the block must have come from an array allocation. */
  function DeleteSize(w: State, ptr: Ptr): (r: Cleared)
    requires ptr != NULL ==> ptr in w.heap && w.heap[ptr].Array? && !Live(w, ptr)
    ensures r.ptr == NULL
    ensures ptr == NULL ==> r.w == w
    ensures ptr != NULL ==> ptr !in r.w.heap && r.w.heap == w.heap - {ptr}
    ensures ptr != NULL ==> Count(r.w.log, FreesOf(ptr)) == Count(w.log, FreesOf(ptr)) + 1
    ensures ptr != NULL ==> r.w.log == w.log + [Freed(ptr, w.heap[ptr])]
    ensures r.w.objs == w.objs && r.w.vars == w.vars
    ensures Valid(w) ==> Valid(r.w)
  {
    var k := if ptr in w.heap then w.heap[ptr] else Array(0);
    var r := SafeDelete(w, ptr, k);
    CountSnoc(w.log, Freed(ptr, k), FreesOf(ptr));
    r
  }

  /** XQBS_delete_ptr: `delete` a single object through a pointer taken by
      value, so no caller variable is cleared: it is left dangling. */
  function DeletePtr(w: State, ptr: Ptr): (r: State)
    requires ptr != NULL ==> Deletable(w, ptr, Single)
    ensures ptr == NULL ==> r == w
    ensures ptr != NULL ==> ptr !in r.heap && r.log == w.log + [Freed(ptr, Single)]
    ensures ptr != NULL ==> r.heap == w.heap - {ptr}
    ensures r.vars == w.vars && r.objs == w.objs
    ensures Valid(w) ==> Valid(r)
  {
    SafeDelete(w, ptr, Single).w
  }

  /** Deleting through the same variable twice frees at most once: the first
      call clears the pointer, so the second one is a no-op. */
  lemma DeleteTwiceFreesOnce(w: State, ptr: Ptr)
    requires ptr != NULL ==> Deletable(w, ptr, Single)
    ensures Delete(Delete(w, ptr).w, Delete(w, ptr).ptr) == Delete(w, ptr)
    ensures Count(Delete(w, ptr).w.log, FreesOf(ptr)) <= Count(w.log, FreesOf(ptr)) + 1
  {
  }

  /** The same for arrays through XQBS_delete_size. */
  lemma DeleteSizeTwiceFreesOnce(w: State, ptr: Ptr)
    requires ptr != NULL ==> ptr in w.heap && w.heap[ptr].Array? && !Live(w, ptr)
    ensures DeleteSize(DeleteSize(w, ptr).w, DeleteSize(w, ptr).ptr) == DeleteSize(w, ptr)
    ensures Count(DeleteSize(w, ptr).w.log, FreesOf(ptr)) <= Count(w.log, FreesOf(ptr)) + 1
  {
  }

  /** Allocation followed by XQBS_delete gives the heap back as it was,
      having logged exactly one release of the new block. */
  lemma NewThenDelete(w: State, raw: Ptr)
    requires Valid(w) && raw !in w.heap && raw != NULL
    ensures New(w, raw).Ok?
    ensures Delete(New(w, raw).value.w, New(w, raw).value.ptr).w
              == w.(log := w.log + [Freed(raw, Single)])
  {
    var a := New(w, raw).value;
    assert a.w.heap - {raw} == w.heap;
  }

  /** An array allocation followed by XQBS_delete_size gives the heap back
      as it was, having logged exactly one release of the array block. */
  lemma NewArrayThenDeleteSize(w: State, raw: Ptr, size: nat)
    requires Valid(w) && raw !in w.heap && raw != NULL
    ensures NewArray(w, raw, size).Ok?
    ensures DeleteSize(NewArray(w, raw, size).value.w, NewArray(w, raw, size).value.ptr).w
              == w.(log := w.log + [Freed(raw, Array(size))])
  {
    var a := NewArray(w, raw, size).value;
    assert a.w.heap - {raw} == w.heap;
  }
}

=== FILE: outcomes.dfy ===
/** Option and Result types shared by the modules of the model, and the two
    exceptions the modelled library can raise. */
module Outcomes {

  /** An optional value: the argument or owner of a release call may be absent. */
  datatype Option<+T> = None | Some(value: T)

  /** The exceptions of the library, as error values. */
  datatype Error =
    | BadAlloc          // thrown by the allocation helpers when `new` yields NULL
    | InvalidRefCount   // thrown by AddRef when the incremented count is not positive

  /** The outcome of an operation that may throw. */
  datatype Result<+T> = Ok(value: T) | Err(error: Error)
}

=== FILE: refbase.dfy ===
/** XQBS_RefBase objects in the world: a counted object is a single-object
    heap block with a counter, and the Release that brings the counter to
    zero deletes the block through XQBS_delete_ptr. */
module RefBase {
  import opened Outcomes
  import RefCount
  import opened World
  import Mem

  /** `new Derived()` through XQBS_new, whose XQBS_RefBase constructor starts
      the counter at 1; BadAlloc when the allocator yields NULL. */
  function NewObject(w: State, raw: Ptr): (r: Result<Mem.Alloc>)
    requires Valid(w) && raw !in w.heap
    ensures r.Err? <==> raw == NULL
    ensures r.Err? ==> r.error == BadAlloc
    ensures r.Ok? ==> r.value.ptr == raw && Live(r.value.w, r.value.ptr)
    ensures r.Ok? ==> r.value.w.heap == w.heap[raw := Single]
    ensures r.Ok? ==> r.value.w.objs == w.objs[raw := r.value.w.objs[raw]]
    ensures r.Ok? ==> r.value.w.objs[r.value.ptr].count == 1
    ensures r.Ok? ==> Valid(r.value.w) && r.value.w.log == w.log && r.value.w.vars == w.vars
  {
    match Mem.New(w, raw)
    case Err(e) => Err(e)
    case Ok(a) => Ok(Mem.Alloc(a.w.(objs := a.w.objs[a.ptr := RefCount.Construct()]), a.ptr))
  }

  /** The world after a Release and the value it returned. */
  datatype Released = Released(w: State, ret: RefCount.Long)

  /** XQBS_RefBase::Release on the live object `p`. */
  function Release(w: State, p: Ptr): (r: Released)
    requires Valid(w) && Live(w, p)
    ensures Valid(r.w)
    ensures RefCount.Increment(r.ret) == w.objs[p].count
    ensures p in r.w.objs && r.w.objs[p].count == r.ret
    ensures r.w.objs == w.objs[p := r.w.objs[p]]
    ensures !Live(r.w, p) <==> r.ret == 0
    ensures r.ret == 0 ==> p !in r.w.heap && r.w.log == w.log + [Freed(p, Single)]
    ensures r.ret == 0 ==> r.w.heap == w.heap - {p}
    ensures r.ret != 0 ==> r.w.heap == w.heap && r.w.log == w.log
    ensures r.w.vars == w.vars
  {
    var rel := RefCount.Release(w.objs[p]);
    var w1 := w.(objs := w.objs[p := rel.obj]);
    if rel.ret == 0 then Released(Mem.DeletePtr(w1, p), 0) else Released(w1, rel.ret)
  }

  /** The world after an AddRef and what it returned or threw. */
  datatype AddRefd = AddRefd(w: State, outcome: Result<RefCount.Long>)

  /** XQBS_RefBase::AddRef on the live object `p`: the counter is
      incremented even when the call throws. */
  function AddRef(w: State, p: Ptr): (r: AddRefd)
    requires Valid(w) && Live(w, p)
    ensures Valid(r.w) && Live(r.w, p)
    ensures r.w == w.(objs := w.objs[p := RefCount.RefObject(RefCount.Increment(w.objs[p].count), false)])
    ensures r.outcome.Err? <==> r.w.objs[p].count <= 0
    ensures r.outcome.Ok? ==> r.outcome.value == w.objs[p].count + 1
  {
    var a := RefCount.AddRef(w.objs[p]);
    AddRefd(w.(objs := w.objs[p := a.obj]), a.outcome)
  }

  /** A freshly created object is destroyed by its first Release, which
      gives its block back exactly once. */
  lemma NewObjectThenRelease(w: State, raw: Ptr)
    requires Valid(w) && raw !in w.heap && raw != NULL
    ensures NewObject(w, raw).Ok?
    ensures Release(NewObject(w, raw).value.w, raw).ret == 0
    ensures !Live(Release(NewObject(w, raw).value.w, raw).w, raw)
    ensures Release(NewObject(w, raw).value.w, raw).w.heap == w.heap
    ensures Count(Release(NewObject(w, raw).value.w, raw).w.log, FreesOf(raw))
              == Count(w.log, FreesOf(raw)) + 1
  {
    var a := NewObject(w, raw).value;
    var r := Release(a.w, raw);
    assert r.w.heap == w.heap;
    CountSnoc(w.log, Freed(raw, Single), FreesOf(raw));
  }
}

=== FILE: refbase_i.dfy ===
/** The null-safe release and destroy helpers declared beside the
    XQBS_RefBase_I interface. XQBS_release calls Release() on a non-null
    pointer and clears it; XQBS_destroy picks, from the static type of the
    pointer, either that path or XQBS_delete. */
module RefBaseI {
  import opened RefCount
  import opened World
  import Mem
  import RefBase

  /** XQBS_release: on a non-null pointer call Release() once, whatever it
      returns, then clear the caller's pointer; on NULL do nothing. The
      block is given back exactly when the count reaches zero. */
  function ReleaseRef(w: State, ptr: Ptr): (r: Mem.Cleared)
    requires Valid(w) && (ptr != NULL ==> Live(w, ptr))
    ensures r.ptr == NULL && Valid(r.w)
    ensures ptr == NULL ==> r.w == w
    ensures ptr != NULL ==> ptr in r.w.objs && r.w.objs[ptr].count == Decrement(w.objs[ptr].count)
    ensures ptr != NULL ==> r.w.objs == w.objs[ptr := r.w.objs[ptr]]
    ensures ptr != NULL ==> (Live(r.w, ptr) <==> r.w.objs[ptr].count != 0)
    ensures ptr != NULL && r.w.objs[ptr].count == 0 ==>
              r.w.heap == w.heap - {ptr} && r.w.log == w.log + [Freed(ptr, Single)]
    ensures ptr != NULL && r.w.objs[ptr].count != 0 ==> r.w.heap == w.heap && r.w.log == w.log
    ensures r.w.vars == w.vars
  {
    if ptr != NULL then
      IncrementDecrementInverse(w.objs[ptr].count);
      Mem.Cleared(RefBase.Release(w, ptr).w, NULL)
    else Mem.Cleared(w, ptr)
  }

  /** `delete` through XQBS_delete on a live object of a class derived from
      XQBS_RefBase: the derived class's destructor is public, so the object
      ends and its block is given back whatever its count, and the caller's
      pointer is cleared. */
  function DeleteCounted(w: State, ptr: Ptr): (r: Mem.Cleared)
    requires Valid(w) && (ptr != NULL ==> Live(w, ptr))
    ensures r.ptr == NULL && Valid(r.w)
    ensures ptr == NULL ==> r.w == w
    ensures ptr != NULL ==> !Live(r.w, ptr) && r.w.heap == w.heap - {ptr}
    ensures ptr != NULL ==> r.w.objs == w.objs[ptr := RefObject(w.objs[ptr].count, true)]
    ensures ptr != NULL ==> r.w.log == w.log + [Freed(ptr, Single)]
    ensures r.w.vars == w.vars
  {
    if ptr != NULL then Mem.Delete(w.(objs := w.objs[ptr := w.objs[ptr].(destroyed := true)]), ptr)
    else Mem.Cleared(w, ptr)
  }

  /** The static type of the pointee, which decides the overload
      XQBS_destroy(T*&) forwards to: a class deriving from XQBS_RefBase_I,
      a class deriving from XQBS_RefBase only (XQBS_RefBase itself does not
      implement the interface), or any other type. */
  datatype Capability = RefCountedInterface | CountedObject | PlainObject

  /** What each path of XQBS_destroy needs of a non-null pointer. */
  predicate CanDestroy(w: State, cap: Capability, ptr: Ptr) {
    ptr != NULL ==>
      match cap
      case RefCountedInterface => Live(w, ptr)
      case CountedObject => Live(w, ptr)
      case PlainObject => Deletable(w, ptr, Single)
  }

  /** XQBS_destroy(T*&) as overload resolution makes it behave: only a type
      converting to XQBS_RefBase_I* reaches XQBS_release; a descendant of
      XQBS_RefBase alone converts only to `void*` and is deleted outright. */
  function DestroyAsWritten(w: State, cap: Capability, ptr: Ptr): (r: Mem.Cleared)
    requires Valid(w) && CanDestroy(w, cap, ptr)
    ensures r.ptr == NULL && Valid(r.w)
    ensures cap == RefCountedInterface ==> r == ReleaseRef(w, ptr)
    ensures cap == CountedObject ==> r == DeleteCounted(w, ptr)
    ensures cap == PlainObject ==> r == Mem.Delete(w, ptr)
  {
    match cap
    case RefCountedInterface => ReleaseRef(w, ptr)
    case CountedObject => DeleteCounted(w, ptr)
    case PlainObject => Mem.Delete(w, ptr)
  }

  /** On an XQBS_RefBase descendant that another holder still references
      (count at least 2), the code as written destroys the object and gives
      its block back, while the release path would only drop one reference. */
  lemma DestroyAsWrittenDeletesSharedObject(w: State, ptr: Ptr)
    requires Valid(w) && ptr != NULL && Live(w, ptr) && w.objs[ptr].count >= 2
    ensures !Live(DestroyAsWritten(w, CountedObject, ptr).w, ptr)
    ensures ptr !in DestroyAsWritten(w, CountedObject, ptr).w.heap
    ensures Live(ReleaseRef(w, ptr).w, ptr) && ReleaseRef(w, ptr).w.heap == w.heap
  {
  }

  /** XQBS_destroy(T*&) as its helpers are documented: Release for every
      reference-counted type, the XQBS_RefBase descendants included, and
      XQBS_delete for every other type; the caller's pointer ends up NULL on
      either path. */
  function Destroy(w: State, cap: Capability, ptr: Ptr): (r: Mem.Cleared)
    requires Valid(w) && CanDestroy(w, cap, ptr)
    ensures r.ptr == NULL && Valid(r.w)
    ensures cap != PlainObject ==> r == ReleaseRef(w, ptr)
    ensures cap == PlainObject ==> r == Mem.Delete(w, ptr)
    ensures ptr == NULL ==> r.w == w
  {
    match cap
    case RefCountedInterface => ReleaseRef(w, ptr)
    case CountedObject => ReleaseRef(w, ptr)
    case PlainObject => Mem.Delete(w, ptr)
  }

  /** On the release path, no block is given back unless the count reaches
      zero; on the delete path the block is given back at once. */
  lemma DestroyFreesOnlyWhenOwned(w: State, cap: Capability, ptr: Ptr)
    requires Valid(w) && CanDestroy(w, cap, ptr) && ptr != NULL
    ensures cap == PlainObject ==> ptr !in Destroy(w, cap, ptr).w.heap
    ensures cap != PlainObject && w.objs[ptr].count != 1 ==>
              Destroy(w, cap, ptr).w.heap == w.heap && Live(Destroy(w, cap, ptr).w, ptr)
    ensures cap != PlainObject && w.objs[ptr].count == 1 ==>
              ptr !in Destroy(w, cap, ptr).w.heap
  {
    if cap != PlainObject {
      IncrementDecrementInverse(w.objs[ptr].count);
    }
  }

  /** Destroying through the same variable twice acts once: the second call
      sees the NULL the first one left behind. */
  lemma DestroyTwiceActsOnce(w: State, cap: Capability, ptr: Ptr)
    requires Valid(w) && CanDestroy(w, cap, ptr)
    ensures Destroy(Destroy(w, cap, ptr).w, cap, Destroy(w, cap, ptr).ptr) == Destroy(w, cap, ptr)
  {
  }
}

=== FILE: refcount.dfy ===
/** The intrusive reference counter of XQBS_RefBase, modelled sequentially.
    The count is a 32-bit LONG updated by InterlockedIncrement and
    InterlockedDecrement, which wrap around in two's complement; the
    `destroyed` flag records the self-destruction performed by the Release
    that brings the count to zero. */
module RefCount {
  import opened Outcomes

  const LONG_MIN: int := -0x8000_0000
  const LONG_MAX: int := 0x7FFF_FFFF
  const LONG_RANGE: int := 0x1_0000_0000

  /** The values of a 32-bit signed LONG. */
  type Long = x: int | LONG_MIN <= x <= LONG_MAX

  /** Two's-complement reduction of an integer into the LONG range. */
  function Wrap(x: int): (r: Long)
    ensures (x - r) % LONG_RANGE == 0
    ensures LONG_MIN <= x <= LONG_MAX ==> r == x
  {
    (x - LONG_MIN) % LONG_RANGE + LONG_MIN
  }

  /** InterlockedIncrement: one more, wrapping from LONG_MAX to LONG_MIN. */
  function Increment(c: Long): (r: Long)
    ensures r == c + 1 || r == c + 1 - LONG_RANGE
  {
    if c == LONG_MAX then LONG_MIN else c + 1
  }

  /** InterlockedDecrement: one less, wrapping from LONG_MIN to LONG_MAX. */
  function Decrement(c: Long): (r: Long)
    ensures r == c - 1 || r == c - 1 + LONG_RANGE
  {
    if c == LONG_MIN then LONG_MAX else c - 1
  }

  /** The interlocked operations are 32-bit two's-complement arithmetic:
      the exact sum or difference, reduced into the LONG range. */
  lemma InterlockedIsTwosComplement(c: Long)
    ensures Increment(c) == Wrap(c + 1)
    ensures Decrement(c) == Wrap(c - 1)
  {
    if c == LONG_MAX {
      assert (c + 1 - LONG_MIN) % LONG_RANGE == 0;
    }
    if c == LONG_MIN {
      assert (c - 1 - LONG_MIN) % LONG_RANGE == LONG_RANGE - 1;
    }
  }

  /** Decrement undoes Increment and vice versa, on the whole LONG range. */
  lemma IncrementDecrementInverse(c: Long)
    ensures Decrement(Increment(c)) == c
    ensures Increment(Decrement(c)) == c
  {
  }

  /** The counter part of an XQBS_RefBase object. */
  datatype RefObject = RefObject(count: Long, destroyed: bool)

  /** XQBS_RefBase(): the creator holds the first reference. */
  function Construct(): (o: RefObject)
    ensures o.count == 1 && !o.destroyed
  {
    RefObject(1, false)
  }

  /** What Release leaves behind and returns. */
  datatype Released = Released(obj: RefObject, ret: Long)

  /** XQBS_RefBase::Release: decrement, self-destroy when the new value is
      zero, return the new value. Calling it on a destroyed object is
      undefined, hence the precondition. */
  function Release(o: RefObject): (r: Released)
    requires !o.destroyed
    ensures Increment(r.ret) == o.count
    ensures o.count > LONG_MIN ==> r.ret == o.count - 1
    ensures r.obj.count == r.ret
    ensures r.obj.destroyed <==> r.ret == 0
  {
    var n := Decrement(o.count);
    IncrementDecrementInverse(o.count);
    Released(RefObject(n, n == 0), n)
  }

  /** What AddRef leaves behind and returns or throws. */
  datatype AddRefd = AddRefd(obj: RefObject, outcome: Result<Long>)

  /** XQBS_RefBase::AddRef: increment, then throw when the new value is not
      positive; the increment is not rolled back before throwing. */
  function AddRef(o: RefObject): (r: AddRefd)
    requires !o.destroyed
    ensures r.obj == RefObject(Increment(o.count), false)
    ensures r.outcome.Err? <==> r.obj.count <= 0
    ensures r.outcome.Err? ==> r.outcome.error == InvalidRefCount
    ensures r.outcome.Ok? ==> r.outcome.value == o.count + 1
    ensures 0 <= o.count < LONG_MAX ==> r.outcome == Ok(o.count + 1)
  {
    var n := Increment(o.count);
    var obj := RefObject(n, false);
    if 0 >= n then AddRefd(obj, Err(InvalidRefCount)) else AddRefd(obj, Ok(n))
  }

  /** An AddRef followed by a Release gives back the object it started from,
      unless the count was zero (where the Release destroys it). */
  lemma AddRefThenRelease(o: RefObject)
    requires !o.destroyed && o.count != 0
    ensures Release(AddRef(o).obj).obj == o
    ensures Release(AddRef(o).obj).ret == o.count
  {
    IncrementDecrementInverse(o.count);
  }

  /** AddRef on a live object whose count is negative, or so large that it
      wraps, throws and destroys nothing. */
  lemma AddRefRejectsInvalidCount(o: RefObject)
    requires !o.destroyed && (o.count < 0 || o.count == LONG_MAX)
    ensures AddRef(o).outcome == Err(InvalidRefCount)
    ensures !AddRef(o).obj.destroyed
  {
  }

  /** From a fresh object, AddRef, Release, Release return 2, 1, 0, and only
      the last call destroys the object. */
  lemma FreshAddRefReleaseRelease()
    ensures AddRef(Construct()).outcome == Ok(2)
    ensures Release(AddRef(Construct()).obj).ret == 1
    ensures !Release(AddRef(Construct()).obj).obj.destroyed
    ensures Release(Release(AddRef(Construct()).obj).obj).ret == 0
    ensures Release(Release(AddRef(Construct()).obj).obj).obj.destroyed
  {
  }

  /** The object and the returned values after a series of Releases. */
  datatype Run = Run(obj: RefObject, results: seq<Long>)

  /** `n` consecutive Releases; each one must find the object alive. */
  function ReleaseRun(o: RefObject, n: nat): (r: Run)
    requires n == 0 || (!o.destroyed && n <= o.count)
    ensures |r.results| == n
    decreases n
  {
    if n == 0 then Run(o, [])
    else
      var first := Release(o);
      var rest := ReleaseRun(first.obj, n - 1);
      Run(rest.obj, [first.ret] + rest.results)
  }

  /** Starting from a live count N, k <= N Releases return N-1, N-2, ...,
      N-k, and the object is destroyed exactly when k reaches N. */
  lemma {:induction false} ReleaseCountdown(o: RefObject, k: nat)
    requires !o.destroyed && 1 <= o.count && k <= o.count
    ensures ReleaseRun(o, k).obj == RefObject(o.count - k, k == o.count)
    ensures forall i :: 0 <= i < k ==> ReleaseRun(o, k).results[i] == o.count - 1 - i
    decreases k
  {
    if k > 0 {
      var first := Release(o);
      if k > 1 {
        ReleaseCountdown(first.obj, k - 1);
      }
    }
  }

  /** N Releases on a live object with count N destroy it exactly once: only
      the N-th call returns zero, and no shorter run destroys it. */
  lemma DestroyedOnLastRelease(o: RefObject)
    requires !o.destroyed && 1 <= o.count
    ensures ReleaseRun(o, o.count).obj.destroyed
    ensures forall k :: 0 <= k < o.count ==> !ReleaseRun(o, k).obj.destroyed
    ensures forall i :: 0 <= i < o.count ==>
              (ReleaseRun(o, o.count).results[i] == 0 <==> i == o.count - 1)
  {
    ReleaseCountdown(o, o.count);
    forall k | 0 <= k < o.count
      ensures !ReleaseRun(o, k).obj.destroyed
    {
      ReleaseCountdown(o, k);
    }
  }
}

=== FILE: scenarios.dfy ===
/** End-to-end uses of the library: allocate, guard, leave the scope. */
module Scenarios {
  import opened Outcomes
  import opened RefCount
  import opened World
  import Mem
  import RefBase
  import SmartGuard

  /** An array of ten elements is allocated into the caller's variable `x`
      and guarded by XQBS_SmartDeleteArray(x, NULL). Leaving the scope
      without an explicit Reset calls the array deleter once with the
      original pointer, gives the block back once, and leaves NULL in `x`. */
  lemma ArrayGuardScope(w: State, x: Var, raw: Ptr)
    requires Valid(w) && x in w.vars && raw != NULL && raw !in w.heap
    ensures Mem.NewArray(w, raw, 10).Ok?
    ensures var a := Mem.NewArray(w, raw, 10).value;
      var c := SmartGuard.SmartDeleteArrayRef(a.w.(vars := a.w.vars[x := a.ptr]), x, NULL);
      && SmartGuard.Ready(c)
      && var r := SmartGuard.Destroy(c);
      && r.vars[x] == NULL
      && raw !in r.heap && r.heap == w.heap
      && r.log == w.log + [Invoked(DeleteObjectArray, None, Some(raw)), Freed(raw, Array(10))]
      && Count(r.log, FreesOf(raw)) == Count(w.log, FreesOf(raw)) + 1
  {
    var a := Mem.NewArray(w, raw, 10).value;
    var w2 := a.w.(vars := a.w.vars[x := a.ptr]);
    var c := SmartGuard.SmartDeleteArrayRef(w2, x, NULL);
    var e := Invoked(DeleteObjectArray, None, Some(raw));
    var r := SmartGuard.Destroy(c);
    assert r.heap == w.heap;
    assert r.log == w.log + [e] + [Freed(raw, Array(10))];
    CountAppend(w.log, [e, Freed(raw, Array(10))], FreesOf(raw));
    assert [e, Freed(raw, Array(10))][..1] == [e];
  }

  /** A fresh counted object (count 1) guarded by XQBS_SmartRelease(p) is
      destroyed exactly once when the guard leaves the scope: its count goes
      from 1 to 0 and its block is given back once. */
  lemma RefReleaseGuardScope(w: State, raw: Ptr)
    requires Valid(w) && raw != NULL && raw !in w.heap
    ensures RefBase.NewObject(w, raw).Ok?
    ensures var a := RefBase.NewObject(w, raw).value;
      var c := SmartGuard.SmartRelease(a.w, a.ptr);
      && SmartGuard.Ready(c)
      && var r := SmartGuard.Destroy(c);
      && raw in r.objs && r.objs[raw] == RefObject(0, true)
      && raw !in r.heap && r.heap == w.heap
      && r.log == w.log + [Invoked(RefRelease, Some(raw), None), Freed(raw, Single)]
  {
    var a := RefBase.NewObject(w, raw).value;
    var r := SmartGuard.Destroy(SmartGuard.SmartRelease(a.w, a.ptr));
    assert r.heap == w.heap;
  }

  /** A guard over a counted object that someone else also holds (count 2)
      only drops its own reference: the object stays alive. */
  lemma SharedObjectSurvivesGuard(w: State, raw: Ptr)
    requires Valid(w) && raw != NULL && raw !in w.heap
    ensures RefBase.NewObject(w, raw).Ok?
    ensures var a := RefBase.NewObject(w, raw).value;
      var b := RefBase.AddRef(a.w, a.ptr);
      && b.outcome == Ok(2)
      && var c := SmartGuard.SmartRelease(b.w, a.ptr);
      && SmartGuard.Ready(c)
      && var r := SmartGuard.Destroy(c);
      && Live(r, raw) && r.objs[raw].count == 1 && r.heap == b.w.heap
  {
  }

  /** Each block-releasing guard built over its own kind of block (`free`
      for a C-allocator block, `delete` for a single object, `delete []`
      for an array) gives that block back exactly once when its scope ends,
      and touches nothing else in the heap. */
  lemma BlockGuardsFreeOnce(w: State, p: Ptr, k: Kind)
    requires Valid(w) && p != NULL && Deletable(w, p, k)
    ensures var c := if k.Malloc? then SmartGuard.SmartFree(w, p)
                     else if k.Single? then SmartGuard.SmartDelete(w, p)
                     else SmartGuard.SmartDeleteArray(w, p);
      && SmartGuard.Ready(c)
      && var r := SmartGuard.Destroy(c);
      && r.heap == w.heap - {p}
      && r.objs == w.objs && r.vars == w.vars
      && Count(r.log, FreesOf(p)) == Count(w.log, FreesOf(p)) + 1
      && Count(r.log, Invocations) == Count(w.log, Invocations) + 1
  {
    var c := if k.Malloc? then SmartGuard.SmartFree(w, p)
             else if k.Single? then SmartGuard.SmartDelete(w, p)
             else SmartGuard.SmartDeleteArray(w, p);
    var e := Invoked(c.g.f, None, Some(p));
    var r := SmartGuard.Destroy(c);
    assert r.log == w.log + [e] + [Freed(p, k)];
    CountAppend(w.log + [e], [Freed(p, k)], FreesOf(p));
    CountSnoc(w.log, e, FreesOf(p));
  }
}

=== FILE: smartguard.dfy ===
/** The scope guard: it holds a slot, a release function `f` (possibly
    null), a sentinel `v` meaning "nothing to release" and, for member
    functions, a bound owner object. Reset calls `f` once when `f` is
    non-null and the slot differs from the sentinel, then writes the
    sentinel into the slot; destroying a guard runs exactly one Reset;
    plain assignment overwrites the slot without releasing anything. */
module SmartGuard {
  import opened Outcomes
  import opened RefCount
  import opened World
  import Mem
  import RefBase

  /** The four call shapes of the release function, chosen in the source by
      the class parameter C (free function or member of a bound owner) and
      the tag B (with or without the guarded value as argument). */
  datatype Protocol =
    | FreeWithParam                    // f(slot)
    | FreeWithoutParam                 // f()
    | MemberWithParam(owner: Ptr)      // (owner.*f)(slot)
    | MemberWithoutParam(owner: Ptr)   // (owner.*f)()

  /** The owner a call is made on, if any. */
  function Owner(p: Protocol): (r: Option<Ptr>)
    ensures r.Some? <==> p.MemberWithParam? || p.MemberWithoutParam?
  {
    match p
    case MemberWithParam(o) => Some(o)
    case MemberWithoutParam(o) => Some(o)
    case _ => None
  }

  /** The argument a call passes when the slot holds `value`, if any. */
  function Argument(p: Protocol, value: Ptr): (r: Option<Ptr>)
    ensures r.Some? <==> p == FreeWithParam || p.MemberWithParam?
    ensures r.Some? ==> r.value == value
  {
    if p == FreeWithParam || p.MemberWithParam? then Some(value) else None
  }

  /** The two ownership flows: a private copy of the value (the guard was
      given a value it cannot refer back to, and its sentinel is NULL), or
      an alias of a caller's variable, which sees every write. */
  datatype Slot = Private(value: Ptr) | Alias(x: Var)

  datatype Guard = Guard(slot: Slot, f: Func, protocol: Protocol, sentinel: Ptr)

  /** A guard together with the world it lives in. */
  datatype Config = Config(w: State, g: Guard)

  /** The combinations of function and call shape the source's types admit:
      the delete helpers and `free` take the value, Release is a member
      without argument; a null or caller-supplied function fits any shape. */
  predicate WellTyped(f: Func, p: Protocol) {
    match f
    case DeleteObject => p == FreeWithParam
    case DeleteObjectArray => p == FreeWithParam
    case CFree => p == FreeWithParam
    case RefRelease => p.MemberWithoutParam?
    case _ => true
  }

  /** An aliased slot refers to an existing caller variable. */
  predicate Bound(c: Config) {
    c.g.slot.Alias? ==> c.g.slot.x in c.w.vars
  }

  /** The current value of the slot: what the guard's conversion to P&
      reads. */
  function Value(c: Config): Ptr
    requires Bound(c)
  {
    match c.g.slot
    case Private(p) => p
    case Alias(x) => c.w.vars[x]
  }

  /** A release is pending: the function is non-null and the slot is not
      the sentinel. */
  predicate Armed(c: Config)
    requires Bound(c)
  {
    c.g.f != NullFn && Value(c) != c.g.sentinel
  }

  /** What `f` needs so that calling it on `value` is defined: the block it
      gives back has the right kind, and the owner of Release is alive. */
  predicate CanInvoke(w: State, f: Func, p: Protocol, value: Ptr) {
    match f
    case DeleteObject => value != NULL ==> Deletable(w, value, Single)
    case DeleteObjectArray => value != NULL ==> value in w.heap && w.heap[value].Array? && !Live(w, value)
    case CFree => value != NULL ==> Deletable(w, value, Malloc)
    case RefRelease => p.MemberWithoutParam? && Live(w, p.owner)
    case _ => true
  }

  /** The guard can be reset without undefined behaviour. */
  predicate Ready(c: Config) {
    && Valid(c.w)
    && Bound(c)
    && WellTyped(c.g.f, c.g.protocol)
    && (Armed(c) ==> CanInvoke(c.w, c.g.f, c.g.protocol, Value(c)))
  }

  /** The guard keeps its function, protocol, sentinel and flow, and an
      aliased slot keeps its variable. */
  predicate SameGuard(a: Guard, b: Guard) {
    && a.f == b.f && a.protocol == b.protocol && a.sentinel == b.sentinel
    && a.slot.Alias? == b.slot.Alias?
    && (a.slot.Alias? ==> a.slot == b.slot)
  }

  /** The effect of the three functions that give a heap block back:
      DeleteObject and DeleteObjectArray receive the value by copy, so the
      clearing done by XQBS_delete / XQBS_delete_size stays local to them,
      and `free` ignores NULL like they do. */
  function GiveBack(w: State, f: Func, value: Ptr): (r: State)
    requires (f.DeleteObject? || f.DeleteObjectArray? || f.CFree?) && CanInvoke(w, f, FreeWithParam, value)
    ensures Valid(w) ==> Valid(r)
    ensures r.vars == w.vars && r.objs == w.objs
    ensures value == NULL ==> r == w
    ensures value != NULL ==> r.heap == w.heap - {value} && r.log == w.log + [Freed(value, w.heap[value])]
  {
    match f
    case DeleteObject => Mem.Delete(w, value).w
    case DeleteObjectArray => Mem.DeleteSize(w, value).w
    case CFree => if value == NULL then w else Mem.Free(w, value, Malloc)
  }

  /** What calling the non-null release function `f` on `value` does to the
      world, apart from logging the call: a block is given back, or Release
      acts on the bound owner, or nothing the model can see happens (a
      caller-supplied function). */
  function Effect(w: State, f: Func, p: Protocol, value: Ptr): (r: State)
    requires Valid(w) && f != NullFn && WellTyped(f, p) && CanInvoke(w, f, p, value)
    ensures Valid(r) && r.vars == w.vars
    ensures r.log == w.log || (|r.log| == |w.log| + 1 && r.log == w.log + [r.log[|w.log|]] && r.log[|w.log|].Freed?)
    ensures !f.RefRelease? ==> r.objs == w.objs
    ensures f.RefRelease? ==>
              && p.owner in r.objs && r.objs == w.objs[p.owner := r.objs[p.owner]]
              && r.objs[p.owner].count == Decrement(w.objs[p.owner].count)
    ensures (f.DeleteObject? || f.DeleteObjectArray? || f.CFree?) && value != NULL ==>
              r.heap == w.heap - {value}
    ensures f.RefRelease? && r.objs[p.owner].count == 0 ==>
              r.heap == w.heap - {p.owner} && r.log == w.log + [Freed(p.owner, Single)]
    ensures f.RefRelease? && r.objs[p.owner].count != 0 ==> r.heap == w.heap && r.log == w.log
    ensures f.RefRelease? ==> (Live(r, p.owner) <==> r.objs[p.owner].count != 0)
    ensures f.Custom? || ((f.DeleteObject? || f.DeleteObjectArray? || f.CFree?) && value == NULL) ==>
              r == w
  {
    match f
    case DeleteObject => GiveBack(w, f, value)
    case DeleteObjectArray => GiveBack(w, f, value)
    case CFree => GiveBack(w, f, value)
    case RefRelease =>
      IncrementDecrementInverse(w.objs[p.owner].count);
      RefBase.Release(w, p.owner).w
    case Custom(_) => w
  }

  /** One call of the non-null release function `f` with the slot value
      `value`: the call is logged as one invocation, then its effect on the
      world happens. */
  function Invoke(w: State, f: Func, p: Protocol, value: Ptr): (r: State)
    requires Valid(w) && f != NullFn && WellTyped(f, p) && CanInvoke(w, f, p, value)
    ensures Valid(r) && r.vars == w.vars
    ensures |r.log| > |w.log| && r.log[..|w.log|] == w.log
    ensures r.log[|w.log|] == Invoked(f, Owner(p), Argument(p, value))
    ensures Count(r.log, Invocations) == Count(w.log, Invocations) + 1
    ensures r == Effect(w.(log := w.log + [Invoked(f, Owner(p), Argument(p, value))]), f, p, value)
  {
    var e := Invoked(f, Owner(p), Argument(p, value));
    var w1 := w.(log := w.log + [e]);
    CountSnoc(w.log, e, Invocations);
    var r := Effect(w1, f, p, value);
    if r.log == w1.log then r
    else
      CountSnoc(w1.log, r.log[|w1.log|], Invocations);
      assert r.log[..|w.log|] == w.log;
      r
  }

  /** The assignment operator: the slot takes `p` and nothing is released.
      In the reference flow the caller's variable itself is overwritten. */
  function Assign(c: Config, p: Ptr): (r: Config)
    requires Bound(c)
    ensures Bound(r) && Value(r) == p && SameGuard(r.g, c.g)
    ensures r.w.log == c.w.log && r.w.heap == c.w.heap && r.w.objs == c.w.objs
    ensures c.g.slot.Private? ==> r.w == c.w
    ensures c.g.slot.Alias? ==> r.w.vars == c.w.vars[c.g.slot.x := p]
    ensures Valid(c.w) ==> Valid(r.w)
  {
    match c.g.slot
    case Private(_) => Config(c.w, c.g.(slot := Private(p)))
    case Alias(x) => Config(c.w.(vars := c.w.vars[x := p]), c.g)
  }

  /** Reset: when armed, call the function once on the current value
      (through the protocol's call shape) and write the sentinel into the
      slot; otherwise do nothing. Either way the guard ends disarmed. */
  function Reset(c: Config): (r: Config)
    requires Ready(c)
    ensures Ready(r) && SameGuard(r.g, c.g) && !Armed(r)
    ensures !Armed(c) ==> r == c
    ensures Armed(c) ==> Value(r) == c.g.sentinel
    ensures Armed(c) ==> r.w == Invoke(c.w, c.g.f, c.g.protocol, Value(c)).(vars := r.w.vars)
    ensures Armed(c) ==> |r.w.log| > |c.w.log| && r.w.log[..|c.w.log|] == c.w.log
    ensures Armed(c) ==>
              r.w.log[|c.w.log|] == Invoked(c.g.f, Owner(c.g.protocol), Argument(c.g.protocol, Value(c)))
    ensures Count(r.w.log, Invocations) == Count(c.w.log, Invocations) + (if Armed(c) then 1 else 0)
    ensures c.g.slot.Private? ==> r.w.vars == c.w.vars
    ensures c.g.slot.Alias? ==> r.w.vars == c.w.vars[c.g.slot.x := Value(r)]
  {
    if Armed(c) then Assign(Config(Invoke(c.w, c.g.f, c.g.protocol, Value(c)), c.g), c.g.sentinel)
    else c
  }

  /** The destructor of every concrete guard: exactly one Reset, after
      which the guard is gone and only the world remains. */
  function Destroy(c: Config): (r: State)
    requires Ready(c)
    ensures Valid(r)
    ensures Count(r.log, Invocations) == Count(c.w.log, Invocations) + (if Armed(c) then 1 else 0)
    ensures c.g.slot.Private? ==> r.vars == c.w.vars
    ensures c.g.slot.Alias? && Armed(c) ==> r.vars == c.w.vars[c.g.slot.x := c.g.sentinel]
    ensures !Armed(c) ==> r == c.w
    ensures Armed(c) ==> r == Invoke(c.w, c.g.f, c.g.protocol, Value(c)).(vars := r.vars)
    ensures Armed(c) ==> |r.log| > |c.w.log| && r.log[..|c.w.log|] == c.w.log
    ensures Armed(c) ==>
              r.log[|c.w.log|] == Invoked(c.g.f, Owner(c.g.protocol), Argument(c.g.protocol, Value(c)))
  {
    Reset(c).w
  }

  /** A second Reset never calls the function again. */
  lemma ResetIdempotent(c: Config)
    requires Ready(c)
    ensures Reset(Reset(c)) == Reset(c)
    ensures Count(Reset(Reset(c)).w.log, Invocations) <= Count(c.w.log, Invocations) + 1
  {
  }

  /** Destroying a guard that was reset explicitly releases nothing more. */
  lemma DestroyAfterReset(c: Config)
    requires Ready(c)
    ensures Destroy(Reset(c)) == Reset(c).w
    ensures Count(Destroy(Reset(c)).log, Invocations) == Count(c.w.log, Invocations) + (if Armed(c) then 1 else 0)
  {
  }

  // ---------------------------------------------------------------------
  // Construction

  /** Value flow: the guard keeps a private copy of `p`, its sentinel is
      NULL, and the world is untouched. */
  function ConstructValue(w: State, p: Ptr, f: Func, protocol: Protocol): (r: Config)
    ensures r.w == w && Bound(r) && r.g.slot.Private?
    ensures r.g.f == f && r.g.protocol == protocol
    ensures Value(r) == p && r.g.sentinel == NULL
    ensures Armed(r) <==> f != NullFn && p != NULL
  {
    Config(w, Guard(Private(p), f, protocol, NULL))
  }

  /** Reference flow: the guard aliases the caller's variable `x` and will
      write `v` into it after releasing. */
  function ConstructRef(w: State, x: Var, f: Func, v: Ptr, protocol: Protocol): (r: Config)
    requires x in w.vars
    ensures r.w == w && Bound(r) && r.g.slot == Alias(x)
    ensures r.g.f == f && r.g.protocol == protocol
    ensures Value(r) == w.vars[x] && r.g.sentinel == v
    ensures Armed(r) <==> f != NullFn && w.vars[x] != v
  {
    Config(w, Guard(Alias(x), f, protocol, v))
  }

  /** XQBS_SmartFree(p): `free` on a copy of `p`. */
  function SmartFree(w: State, p: Ptr): (r: Config)
    ensures r.w == w && Bound(r) && Value(r) == p && (Armed(r) <==> p != NULL)
    ensures Valid(w) && (p != NULL ==> Deletable(w, p, Malloc)) ==> Ready(r)
    ensures r.g.f == CFree && r.g.protocol == FreeWithParam && r.g.sentinel == NULL
  {
    ConstructValue(w, p, CFree, FreeWithParam)
  }

  /** XQBS_SmartFree(p&, v): `free` on the caller's variable `x`. */
  function SmartFreeRef(w: State, x: Var, v: Ptr): (r: Config)
    requires x in w.vars
    ensures r.w == w && r.g.slot == Alias(x) && (Armed(r) <==> w.vars[x] != v)
    ensures Valid(w) && (w.vars[x] != NULL ==> Deletable(w, w.vars[x], Malloc)) ==> Ready(r)
    ensures r.g.f == CFree && r.g.protocol == FreeWithParam && r.g.sentinel == v
  {
    ConstructRef(w, x, CFree, v, FreeWithParam)
  }

  /** XQBS_SmartDelete(p): `delete` on a copy of `p`. */
  function SmartDelete(w: State, p: Ptr): (r: Config)
    ensures r.w == w && Bound(r) && Value(r) == p && (Armed(r) <==> p != NULL)
    ensures Valid(w) && (p != NULL ==> Deletable(w, p, Single)) ==> Ready(r)
    ensures r.g.f == DeleteObject && r.g.protocol == FreeWithParam && r.g.sentinel == NULL
  {
    ConstructValue(w, p, DeleteObject, FreeWithParam)
  }

  /** XQBS_SmartDelete(p&, v): `delete` on the caller's variable `x`. */
  function SmartDeleteRef(w: State, x: Var, v: Ptr): (r: Config)
    requires x in w.vars
    ensures r.w == w && r.g.slot == Alias(x) && (Armed(r) <==> w.vars[x] != v)
    ensures Valid(w) && (w.vars[x] != NULL ==> Deletable(w, w.vars[x], Single)) ==> Ready(r)
    ensures r.g.f == DeleteObject && r.g.protocol == FreeWithParam && r.g.sentinel == v
  {
    ConstructRef(w, x, DeleteObject, v, FreeWithParam)
  }

  /** XQBS_SmartDeleteArray(p): `delete []` on a copy of `p`. */
  function SmartDeleteArray(w: State, p: Ptr): (r: Config)
    ensures r.w == w && Bound(r) && Value(r) == p && (Armed(r) <==> p != NULL)
    ensures Valid(w) && (p != NULL ==> p in w.heap && w.heap[p].Array? && !Live(w, p)) ==> Ready(r)
    ensures r.g.f == DeleteObjectArray && r.g.protocol == FreeWithParam && r.g.sentinel == NULL
  {
    ConstructValue(w, p, DeleteObjectArray, FreeWithParam)
  }

  /** XQBS_SmartDeleteArray(p&, v): `delete []` on the caller's variable `x`. */
  function SmartDeleteArrayRef(w: State, x: Var, v: Ptr): (r: Config)
    requires x in w.vars
    ensures r.w == w && r.g.slot == Alias(x) && (Armed(r) <==> w.vars[x] != v)
    ensures Valid(w) && (w.vars[x] != NULL ==> w.vars[x] in w.heap && w.heap[w.vars[x]].Array? && !Live(w, w.vars[x])) ==> Ready(r)
    ensures r.g.f == DeleteObjectArray && r.g.protocol == FreeWithParam && r.g.sentinel == v
  {
    ConstructRef(w, x, DeleteObjectArray, v, FreeWithParam)
  }

  /** XQBS_SmartRelease(p): Release() on the object `p`, which is bound as
      the owner when the guard is built. */
  function SmartRelease(w: State, p: Ptr): (r: Config)
    ensures r.w == w && Bound(r) && Value(r) == p && (Armed(r) <==> p != NULL)
    ensures r.g.protocol == MemberWithoutParam(p)
    ensures Valid(w) && (p != NULL ==> Live(w, p)) ==> Ready(r)
    ensures r.g.f == RefRelease && r.g.sentinel == NULL
  {
    ConstructValue(w, p, RefRelease, MemberWithoutParam(p))
  }

  /** XQBS_SmartRelease(p&, v): Release() on the object the caller's
      variable `x` points to at construction time. */
  function SmartReleaseRef(w: State, x: Var, v: Ptr): (r: Config)
    requires x in w.vars
    ensures r.w == w && r.g.slot == Alias(x) && (Armed(r) <==> w.vars[x] != v)
    ensures r.g.protocol == MemberWithoutParam(w.vars[x])
    ensures Valid(w) && (w.vars[x] != v ==> Live(w, w.vars[x])) ==> Ready(r)
    ensures r.g.f == RefRelease && r.g.sentinel == v
  {
    ConstructRef(w, x, RefRelease, v, MemberWithoutParam(w.vars[x]))
  }

  // ---------------------------------------------------------------------
  // Properties of single calls

  /** The conversion to P& reads the caller's variable itself in reference
      flow, so it sees the caller's own writes to that variable, and reads
      the private copy in value flow, which no write to a caller variable
      reaches. */
  lemma ValueTracksFlow(c: Config, y: Var, q: Ptr)
    requires Bound(c)
    ensures var c2 := Config(c.w.(vars := c.w.vars[y := q]), c.g);
      && Bound(c2)
      && (c.g.slot == Alias(y) ==> Value(c2) == q)
      && (c.g.slot != Alias(y) ==> Value(c2) == Value(c))
  {
  }

  /** Member protocols call `owner.f(slot)` or `owner.f()`, free-function
      protocols `f(slot)` or `f()`; all four use the same condition and all
      four leave the sentinel in the slot. */
  lemma ResetCallShape(c: Config)
    requires Ready(c) && Armed(c)
    ensures var e := Reset(c).w.log[|c.w.log|];
      && e.f == c.g.f
      && (e.owner.Some? <==> c.g.protocol.MemberWithParam? || c.g.protocol.MemberWithoutParam?)
      && (e.owner.Some? ==> e.owner.value == c.g.protocol.owner)
      && (e.arg.Some? <==> c.g.protocol == FreeWithParam || c.g.protocol.MemberWithParam?)
      && (e.arg.Some? ==> e.arg.value == Value(c))
    ensures Value(Reset(c)) == c.g.sentinel
  {
  }

  /** Release always targets the owner bound at construction: after the
      slot of a value-flow XQBS_SmartRelease is reassigned to another
      non-null object, Reset still decrements the original one and leaves
      the new one alone. */
  lemma SmartReleaseTargetsOriginal(w: State, p: Ptr, q: Ptr)
    requires Valid(w) && p != NULL && Live(w, p) && q != NULL && q != p
    ensures Ready(Assign(SmartRelease(w, p), q))
    ensures var r := Reset(Assign(SmartRelease(w, p), q)).w;
      && p in r.objs && r.objs[p].count == Decrement(w.objs[p].count)
      && (q in w.objs ==> q in r.objs && r.objs[q] == w.objs[q])
      && r.log[|w.log|] == Invoked(RefRelease, Some(p), None)
  {
    var c := Assign(SmartRelease(w, p), q);
    assert c.w == w && Value(c) == q && Armed(c);
    IncrementDecrementInverse(w.objs[p].count);
  }

  // ---------------------------------------------------------------------
  // Lifetimes: a series of assignments and explicit Resets

  datatype Op = OpAssign(p: Ptr) | OpReset

  /** The number of assignments in `ops`. */
  function Assignments(ops: seq<Op>): (n: nat)
    ensures n <= |ops|
  {
    if ops == [] then 0 else (if ops[0].OpAssign? then 1 else 0) + Assignments(ops[1..])
  }

  /** Runs `ops` on the guard; None when a Reset would call its function
      where that call is undefined (a wrong kind of block, a destroyed
      owner). */
  function Run(c: Config, ops: seq<Op>): (r: Option<Config>)
    requires Valid(c.w) && Bound(c) && WellTyped(c.g.f, c.g.protocol)
    ensures r.Some? ==> Valid(r.value.w) && Bound(r.value) && SameGuard(r.value.g, c.g)
    decreases |ops|
  {
    if ops == [] then Some(c)
    else match ops[0]
      case OpAssign(p) => Run(Assign(c, p), ops[1..])
      case OpReset => if Ready(c) then Run(Reset(c), ops[1..]) else None
  }

  /** Without assignments a guard calls its function at most once over any
      series of Resets: exactly once if it started armed and was reset,
      never otherwise. */
  lemma {:induction false} RunWithoutAssignReleasesOnce(c: Config, ops: seq<Op>)
    requires Ready(c)
    requires forall i :: 0 <= i < |ops| ==> ops[i] == OpReset
    ensures Run(c, ops).Some?
    ensures Count(Run(c, ops).value.w.log, Invocations)
              == Count(c.w.log, Invocations) + (if Armed(c) && |ops| > 0 then 1 else 0)
    ensures |ops| > 0 ==> !Armed(Run(c, ops).value)
    ensures Ready(Run(c, ops).value)
    decreases |ops|
  {
    if ops != [] {
      var r := Reset(c);
      RunWithoutAssignReleasesOnce(r, ops[1..]);
    }
  }

  /** Each assignment can re-arm the guard, so over any series of
      operations the function is called at most once per assignment, plus
      once for the value the guard started with. */
  lemma {:induction false} RunReleasesBoundedByAssignments(c: Config, ops: seq<Op>)
    requires Valid(c.w) && Bound(c) && WellTyped(c.g.f, c.g.protocol)
    requires Run(c, ops).Some?
    ensures Count(Run(c, ops).value.w.log, Invocations)
              <= Count(c.w.log, Invocations) + (if Armed(c) then 1 else 0) + Assignments(ops)
    decreases |ops|
  {
    if ops != [] {
      match ops[0]
      case OpAssign(p) =>
        RunReleasesBoundedByAssignments(Assign(c, p), ops[1..]);
      case OpReset =>
        RunReleasesBoundedByAssignments(Reset(c), ops[1..]);
    }
  }

  /** A value-flow guard never writes a caller's variable, whatever is done
      with it. */
  lemma {:induction false} RunPrivateKeepsVars(c: Config, ops: seq<Op>)
    requires Valid(c.w) && Bound(c) && WellTyped(c.g.f, c.g.protocol) && c.g.slot.Private?
    requires Run(c, ops).Some?
    ensures Run(c, ops).value.w.vars == c.w.vars
    decreases |ops|
  {
    if ops != [] {
      match ops[0]
      case OpAssign(p) =>
        RunPrivateKeepsVars(Assign(c, p), ops[1..]);
      case OpReset =>
        RunPrivateKeepsVars(Reset(c), ops[1..]);
    }
  }

  /** A whole scope without assignments: any explicit Resets, then the
      destructor. An armed guard releases exactly once, whether or not it
      was reset explicitly, and a reference-flow guard leaves the sentinel
      in the caller's variable. */
  lemma ScopeReleasesExactlyOnce(c: Config, ops: seq<Op>)
    requires Ready(c)
    requires forall i :: 0 <= i < |ops| ==> ops[i] == OpReset
    ensures Run(c, ops).Some? && Ready(Run(c, ops).value)
    ensures Count(Destroy(Run(c, ops).value).log, Invocations)
              == Count(c.w.log, Invocations) + (if Armed(c) then 1 else 0)
    ensures c.g.slot.Alias? && Armed(c) ==> Destroy(Run(c, ops).value).vars[c.g.slot.x] == c.g.sentinel
  {
    RunWithoutAssignReleasesOnce(c, ops);
    var r := Run(c, ops).value;
    if |ops| > 0 {
      assert !Armed(r);
      if c.g.slot.Alias? && Armed(c) {
        RunAliasSentinel(c, ops);
      }
    }
  }

  /** After at least one Reset of an armed reference-flow guard, with no
      assignment, the caller's variable holds the sentinel. */
  lemma {:induction false} RunAliasSentinel(c: Config, ops: seq<Op>)
    requires Ready(c) && c.g.slot.Alias? && Armed(c) && |ops| > 0
    requires forall i :: 0 <= i < |ops| ==> ops[i] == OpReset
    ensures Run(c, ops).Some?
    ensures Run(c, ops).value.w.vars[c.g.slot.x] == c.g.sentinel
    decreases |ops|
  {
    var r := Reset(c);
    assert ops[0] == OpReset;
    assert Run(c, ops) == Run(r, ops[1..]);
    assert Value(r) == c.g.sentinel && !Armed(r);
    RunResetsDisarmedIdentity(r, ops[1..]);
  }

  /** Resets of a disarmed guard change nothing. */
  lemma {:induction false} RunResetsDisarmedIdentity(c: Config, ops: seq<Op>)
    requires Ready(c) && !Armed(c)
    requires forall i :: 0 <= i < |ops| ==> ops[i] == OpReset
    ensures Run(c, ops) == Some(c)
    decreases |ops|
  {
    if ops != [] {
      RunResetsDisarmedIdentity(c, ops[1..]);
    }
  }
}

=== FILE: world.dfy ===
/** The state every operation of the library acts on: an abstract heap of
    allocated blocks, the counters of the reference-counted objects living in
    it, the caller's pointer variables, and a log of release events. */
module World {
  import opened Outcomes
  import opened RefCount

  /** An address; 0 is the NULL pointer. */
  type Ptr = nat
  const NULL: Ptr := 0

  /** The name of a caller's pointer variable. */
  type Var = string

  /** How a heap block was obtained, which decides how it must be released. */
  datatype Kind =
    | Single                 // `new T`, released by `delete`
    | Array(length: nat)     // `new T[length]`, released by `delete []`
    | Malloc                 // the C allocator, released by `free`

  /** The release functions a guard can hold: a null function pointer, the
      guard's own DeleteObject / DeleteObjectArray helpers, the C library
      `free`, the member XQBS_RefBase::Release, or a function supplied by the
      caller whose only visible effect is being called. */
  datatype Func = NullFn | DeleteObject | DeleteObjectArray | CFree | RefRelease | Custom(id: nat)

  /** A release event: a guard invoking its function (with the bound owner
      and the argument it passes, when there are such), or a heap block
      being given back. */
  datatype Event =
    | Invoked(f: Func, owner: Option<Ptr>, arg: Option<Ptr>)
    | Freed(p: Ptr, kind: Kind)

  /** One state of the world the library acts on. */
  datatype State = State(
    heap: map<Ptr, Kind>,
    objs: map<Ptr, RefObject>,
    vars: map<Var, Ptr>,
    log: seq<Event>)

  /** `p` is a reference-counted object that has not destroyed itself. */
  predicate Live(w: State, p: Ptr) {
    p in w.objs && !w.objs[p].destroyed
  }

  /** Well-formedness kept by every operation: NULL is never allocated, and
      every live counted object sits in a single-object heap block. */
  predicate Valid(w: State) {
    && NULL !in w.heap
    && forall p | p in w.objs :: !w.objs[p].destroyed ==> p in w.heap && w.heap[p] == Single
  }

  /** `p` may be given back as a block of kind `k`. A live counted
      object may not: deleting it is a documented misuse, since
      XQBS_SmartRelease exists for objects that are to be released and
      never deleted, and only the object's own last Release is meant to
      destroy it. The one place the
      code still does so, XQBS_destroy on an XQBS_RefBase descendant, is
      modelled separately as `RefBaseI.DeleteCounted`. */
  predicate Deletable(w: State, p: Ptr, k: Kind) {
    p in w.heap && w.heap[p] == k && !Live(w, p)
  }

  /** What to count in a log. */
  datatype Tally = Invocations | FreesOf(p: Ptr)

  predicate Counts(t: Tally, e: Event) {
    match t
    case Invocations => e.Invoked?
    case FreesOf(p) => e.Freed? && e.p == p
  }

  /** The number of events in `log` that `t` counts. */
  function Count(log: seq<Event>, t: Tally): (n: nat)
    ensures n <= |log|
  {
    if log == [] then 0
    else Count(log[..|log| - 1], t) + (if Counts(t, log[|log| - 1]) then 1 else 0)
  }

  /** Counting distributes over concatenation of logs. */
  lemma {:induction false} CountAppend(a: seq<Event>, b: seq<Event>, t: Tally)
    ensures Count(a + b, t) == Count(a, t) + Count(b, t)
    decreases |b|
  {
    if b == [] {
      assert a + b == a;
    } else {
      var b' := b[..|b| - 1];
      assert (a + b)[..|a + b| - 1] == a + b';
      CountAppend(a, b', t);
    }
  }

  /** Appending one event adds one to the count exactly when it is counted. */
  lemma CountSnoc(a: seq<Event>, e: Event, t: Tally)
    ensures Count(a + [e], t) == Count(a, t) + (if Counts(t, e) then 1 else 0)
  {
    assert (a + [e])[..|a|] == a;
  }
}
